=== FILE: README.md ===
# Struct-assignment expansion, modelled in Dafny

This project models smatch's struct-assignment pass (`smatch_struct_assignment.c`).
The pass turns a whole-struct copy into one fake assignment per struct member, so that
the per-variable state tracker sees field-level updates:

- `one = two;` becomes `one.x = two.x; one.y = two.y; ...`;
- `p1 = p2;` becomes `p1->x = p2->x; ...`;
- `memcpy`/`memmove(&dst, &src, n)` behaves as `dst = src;`;
- `memset(&v, c, n)` sets every non-array member of `v` to `c`;
- a project-configured "clears argument" function makes every non-array member of argument 0 unknown (whichever argument the directive names; see Findings).

Modules:

- `Wrappers` holds `Option`, used wherever the C code has a pointer that may be NULL.
- `CTypes` holds resolved types: struct (with symbol identity and ordered members), pointer, array and scalar. Two structs are the same type when they share the symbol identity (`SameStruct`), as the C code compares symbol pointers. It also holds `Expandable`, the non-array members.
- `Exprs` holds expression nodes and the AST builders as constructors: `strip_expr`, `remove_addr`, and the `.`/`*` member-access choice.
- `StructAssignment` holds `get_struct_type`, `get_matching_member_expr` and the expander. The expander appears twice:
  - `Expand` is a function returning the trace of fake assignments;
  - `StructMembersCopy` is the C loop with the `__in_fake_assign` counter threaded explicitly, proved equal to `Expand`.
- `ExpansionProperties` holds all-inputs lemmas about the expander.
- `Triggers` holds what starts an expansion: a struct assignment statement and the `memset`, `memcpy`/`memmove` and clearing call hooks.
- `MemberStates` holds `strncmp` with C terminator semantics and the member-state probe. The probe is proved exact on name-sorted state lists.
- `ClearsParam` holds the directive token parser and its round trip with `Render`.
- `Hooks` holds hook registration as a returned list, plus hook dispatch.

Two behaviours of the code are modelled as written:

- `match_memcpy_unknown` clears argument 0 whatever parameter index the directive names, although the hook is registered with that index. This is listed under Findings.
- The probe's delimiter test is `'.'` or `'-'` (the `'.'` test appears twice). It does not test for the two-character `->`.

## Model

| member | source | states |
|---|---|---|
| CTypes.ExpandableMembers | smatch_struct_assignment.c:155-158 | a member is copied exactly when it is a struct member that is not an array |
| CTypes.ExpandableAppend | smatch_struct_assignment.c:155-158 | the copied members of a concatenation are those of each part, in order; with `ExpandableSingle` this pins down the order and multiplicity of copied members |
| StructAssignment.GetStructType | smatch_struct_assignment.c:55-67 | a struct is found exactly when the type is a struct or a pointer to a struct (one pointer level only), and it is that struct |
| StructAssignment.GetMatchingMemberExpr | smatch_struct_assignment.c:108-131 | a right member exists iff the member is named, there is a right operand and its struct is the same struct symbol as the left one (compared by symbol identity, so a struct reached through its own pointer member matches); it is `right.m` or `(*right).m` after an outer `&` is stripped |
| StructAssignment.MemberAssignment | smatch_struct_assignment.c:160-173 | the left side is the member reached with the chosen access kind; in MEMSET mode the right side is the fill value, or unknown when there is none; in NORMAL and MEMCPY modes it is the same-named member of the right operand (`.` or `*` by its pointerness, `&` stripped) exactly when the member is named and the right operand is the same struct symbol, and the unknown value of the left side otherwise |
| StructAssignment.CopyMembersShape | smatch_struct_assignment.c:155-177 | the member loop emits one step per non-array member in declaration order, each evaluated with the counter one above its entry value |
| StructAssignment.Expand | smatch_struct_assignment.c:133-178 | nothing is emitted while the counter is non-zero or when the left operand is not a struct (or pointer to one); otherwise as many assignments as non-array members; every emitted assignment is evaluated with the counter non-zero |
| StructAssignment.CopyMembersLoop | smatch_struct_assignment.c:155-177 | the loop that increments the counter, hands one assignment to the evaluator and decrements it again ends with the counter at its entry value and emits exactly the steps of the member loop |
| StructAssignment.StructMembersCopy | smatch_struct_assignment.c:133-178 | the counter ends at its entry value on every path, and the steps handed to the evaluator are exactly those of `Expand` |
| ExpansionProperties.ExpandShape | smatch_struct_assignment.c:155-177 | the `k`-th assignment of an expansion entered at 0 is the member assignment for the `k`-th non-array member, evaluated with the counter at 1 |
| ExpansionProperties.OneAssignmentPerMember | smatch_struct_assignment.c:155-173 | exactly one assignment per non-array member, in declaration order, assigning the member of that name |
| ExpansionProperties.ArrayMembersNeverCopied | smatch_struct_assignment.c:155-158 | no assigned member is an array, and each is a member of the left struct |
| ExpansionProperties.LeftAccessKind | smatch_struct_assignment.c:150-153 | the left side is `(*left).m` iff the left operand is a pointer, `left.m` otherwise |
| ExpansionProperties.CopyRightSide | smatch_struct_assignment.c:162-172 | in NORMAL and MEMCPY modes the right side is the same-named right member iff the member is named, the right operand exists and is the same struct symbol; otherwise the unknown value of the left member |
| ExpansionProperties.RightAccessKind | smatch_struct_assignment.c:122-130 | a matched right side is `(*right).m` iff the `&`-stripped right operand is a pointer, `right.m` otherwise |
| ExpansionProperties.MemsetRightSide | smatch_struct_assignment.c:167-172 | in MEMSET mode every right side is the same fill expression, and the unknown value only when there is none |
| ExpansionProperties.NestedExpansionSuppressed | smatch_struct_assignment.c:140-141 | an expansion only emits when entered at 0, and no expansion started while one of its assignments is evaluated emits anything |
| ExpansionProperties.MemcpyModeIsNormalMode | smatch_struct_assignment.c:162-166 | MEMCPY and NORMAL modes emit the same assignments for all inputs |
| ExpansionProperties.EveryLeftSide | smatch_struct_assignment.c:150-160 | at any counter value, every left side is a member of the left operand, reached with its access kind |
| ExpansionProperties.EveryCopyRightSide | smatch_struct_assignment.c:160-172 | in NORMAL and MEMCPY modes every right side is the unknown value or the same-named member of the right operand, and always the unknown value when there is no right operand |
| ExpansionProperties.EveryMemsetRightSide | smatch_struct_assignment.c:167-172 | in MEMSET mode, at any counter value, every right side is the fill expression, or the unknown value when there is none |
| ExpansionProperties.EveryCopiedMember | smatch_struct_assignment.c:155-173 | at any counter value, step `k` of an expansion of a struct assigns the `k`-th non-array member of the left operand |
| ExpansionProperties.EveryCopyRightMember | smatch_struct_assignment.c:160-172 | at any counter value, in NORMAL and MEMCPY modes step `k`'s right side is the same-named right member exactly when the member is named and the right operand is the same struct symbol, and the unknown value otherwise |
| Triggers.FakeStructMemberAssignments | smatch_struct_assignment.c:180-183 | a struct assignment statement emits nothing inside an expansion or when the left side is not a struct; otherwise step `k` assigns the `k`-th non-array member of the left side, from the same-named member of the right side exactly when that member is named and the right side is the same struct symbol, and the unknown value otherwise |
| Triggers.MatchMemset | smatch_struct_assignment.c:194-204 | nothing inside an expansion or on a non-struct buffer; otherwise step `k` assigns the `k`-th non-array member of the `&`-stripped buffer, each the second argument, or the unknown value when the call has none |
| Triggers.MatchMemcpy | smatch_struct_assignment.c:206-215 | `memcpy(dest, src, n)` emits what the assignment `dest = src` emits, `&` stripped from both sides |
| Triggers.MatchMemcpyUnknown | smatch_struct_assignment.c:217-223 | nothing inside an expansion or on a non-struct argument 0; otherwise step `k` makes the `k`-th non-array member of argument 0 unknown, whatever the parameter index |
| Triggers.MatchClearsArgument | smatch_struct_assignment.c:217-223 | the corrected clearer: step `k` makes the `k`-th non-array member of the registered argument unknown, and nothing is emitted inside an expansion or on a non-struct argument |
| Triggers.MemcpyIsStructAssignment | smatch_struct_assignment.c:206-215 | `memcpy(&dst, &src, n)` emits exactly what the statement `dst = src;` emits |
| Triggers.MemsetFillsEveryMember | smatch_struct_assignment.c:194-204 | `memset(&v, c, n)` on a struct emits `v.m = c` once per non-array member, in order |
| Triggers.ClearerClearsArgumentZero | smatch_struct_assignment.c:217-223 | a clearing call makes every member of argument 0's struct unknown, whatever parameter the hook carries |
| Triggers.ClearerIgnoresParamIndex | smatch_struct_assignment.c:217-223 | for `foo(&a, &b)` registered as clearing argument 1, the source clears `a`'s member while the corrected hook clears `b`'s |
| Triggers.ClearsArgumentTargetsParam | smatch_struct_assignment.c:217-223 | the corrected clearing hook makes every member of the registered argument's struct unknown |
| Triggers.SelfReferentialStructCopies | smatch_struct_assignment.c:117-130 | for `struct node { int x; struct node *next; }`, `n = *n.next;` copies both members from `*n.next`, because the struct reached through `next` is the same symbol |
| Exprs.RemoveAddr | smatch_struct_assignment.c:185-192 | the result is unwrapped; it is the stripped operand of an outer `&` when there is one, else the stripped expression |
| MemberStates.Strncmp | smatch_struct_assignment.c:89 | zero iff the first `n` characters (reading the terminator) agree; negative or positive exactly as the first difference is smaller or larger |
| MemberStates.ScanMemberStates | smatch_struct_assignment.c:86-102 | answering true means some SMATCH_EXTRA entry names the variable followed by `.` or `-` |
| MemberStates.ScanComplete | smatch_struct_assignment.c:86-102 | on a list whose SMATCH_EXTRA entries are in name order, the scan finds every such member entry despite stopping early |
| MemberStates.KnownStructMemberStates | smatch_struct_assignment.c:69-106 | false when no variable name can be derived after stripping `&`; true only when a member state exists |
| MemberStates.KnownStructMemberStatesIff | smatch_struct_assignment.c:78-105 | on a name-sorted list the probe is true iff a name is derived and some SMATCH_EXTRA entry extends it with `.` or `-` |
| MemberStates.ScanSkipsPrefixWithoutDelimiter | smatch_struct_assignment.c:89-99 | an entry that agrees with the name on its length but is not followed by `.` or `-` is passed over: the scan answers as on the rest of the list |
| MemberStates.WholeVariableIsNotMember | smatch_struct_assignment.c:92-99 | an entry equal to the variable name itself is skipped: the scan answers as on the rest of the list |
| MemberStates.ScanStopsAtLaterName | smatch_struct_assignment.c:89-101 | when no member state comes earlier, the scan answers false at any SMATCH_EXTRA entry that compares greater on the first `len` characters, whatever follows it |
| ClearsParam.ParseTokens | smatch_struct_assignment.c:243-253 | the directives read are exactly the leading identifier/number pairs, and the token after them ends the stream or is of the wrong kind |
| ClearsParam.ParseDirectives | smatch_struct_assignment.c:237-242 | a missing stream, or one not opening with STREAMBEGIN, yields no directive |
| ClearsParam.ParseRender | smatch_struct_assignment.c:242-253 | reading a rendered directive stream gives back the directives, in order |
| ClearsParam.MalformedKeepsEarlier | smatch_struct_assignment.c:243-245 | a token other than an identifier where a function name is expected stops parsing and keeps the directives read before it |
| ClearsParam.MissingNumberKeepsEarlier | smatch_struct_assignment.c:246-249 | a token other than a number after a function name stops parsing and keeps the directives read before it |
| ClearsParam.ParseTail | smatch_struct_assignment.c:243-253 | the tokens of some directives followed by a closed stream that yields no directive parse back to exactly those directives |
| ClearsParam.OpenedBody | smatch_struct_assignment.c:237-253 | a stream opened by STREAMBEGIN, holding the tokens of some directives and then a closed tail that yields no directive, reads back exactly those directives |
| ClearsParam.NoDirectiveAtHead | smatch_struct_assignment.c:243-249 | a closed stream that does not start with a function name followed by a number yields no directive |
| ClearsParam.ClearsArgumentFile | smatch_struct_assignment.c:235 | the file name is `<project>.clears_argument` cut to at most 255 characters: exactly 255 when the full name is longer, a prefix of the full name always |
| Hooks.DirectiveHooks | smatch_struct_assignment.c:251 | one clearing hook per directive, in order, carrying its function and parameter |
| Hooks.RegisterClearsParam | smatch_struct_assignment.c:225-255 | no project or no file registers nothing; otherwise one clearing hook per parsed directive, in order |
| Hooks.RegisterStructAssignment | smatch_struct_assignment.c:257-265 | memset, memcpy and memmove come first with their callbacks, followed by the clearing hooks |
| Hooks.RunHook | smatch_struct_assignment.c:194-223 | nothing inside an expansion, and nothing from a memset or clearing hook whose operand is not a struct; a memset hook assigns, in order, each non-array member of the buffer the fill value; a memcpy hook is the struct assignment of its `&`-stripped arguments; a clearing hook makes, in order, each non-array member of argument 0 unknown |
| Hooks.DirectiveHookClearsArgumentZero | smatch_struct_assignment.c:217-223 | every hook registered from a directive assigns, member by member in order, the unknown value to argument 0's non-array members |

## Left out

- The type resolver (`get_type`, `get_real_base_type`) is not modelled. Each expression carries its resolved type, and a pointer type always has a pointee.
- A built member expression takes the declared type of its member.
- A self-referential struct (`struct node *next` inside `struct node`) is a finite unrolling: the type reached through the member is a copy of the struct with the same symbol identity, cut off at some depth. Each copy lists the struct's members; only the type of a member below the cut is incomplete. Matching compares symbol identity only, so the cut does not change which right members are matched.
- `strip_expr` is modelled as removing parentheses and casts only. Statement expressions and other wrappers are not modelled.
- `deref_expression` is modelled as a plain `*` node. The model has no binary-operator node, so such an operand is a typed leaf and the extra parenthesis `deref_expression` puts around it is not represented.
- The evaluator `__split_expr` is not modelled. Handing it an assignment appends a step to the returned trace.
- Nested expansions started by the evaluator are not executed. `NestedExpansionSuppressed` shows each one would emit nothing.
- `__get_cur_slist` and `expr_to_var` are external. The state list is an input and the naming is a function parameter.
- Names are NUL-free character sequences compared by code point. C compares them as unsigned bytes; the two agree for ASCII names.
- File reading (`get_tokens_file`) is modelled as a map from file name to token stream. Every stream must end with STREAMEND, as the tokenizer guarantees.
- `atoi` and `show_ident` are not modelled: tokens carry their values.
- `clear_token_alloc` (memory) is left out.
- The global hook table is left out. Registration returns the hook list.
- `option_project` and `option_project_str` are not modelled. The project is an optional parameter.
- The counter `__in_fake_assign` is an unbounded integer. It only moves from 0 to 1 and back, so the C `int` width never matters.
- Triggers require the call arguments they dereference (`memset`: 1, `memcpy`: 2, clearer: 1). A missing argument is a NULL dereference in `remove_addr`.
- MemberStates.KnownStructMemberStates: its own contract states only soundness. Completeness holds only when the state list is name-sorted, so it is stated separately in `KnownStructMemberStatesIff`.

## Findings

| source | as written | input that shows it | evidently intended | confidence | as-written member | corrected member |
|---|---|---|---|---|---|---|
| smatch_struct_assignment.c:217-223 | `match_memcpy_unknown` always clears argument 0 and ignores the parameter index registered with the hook (line 251) | directive `foo 1` and call `foo(&a, &b)` with `a`, `b` structs: `a`'s members become unknown, `b`'s are untouched | clear the argument the directive names | not executed; high | Triggers.ClearerIgnoresParamIndex | Triggers.ClearsArgumentTargetsParam |

The corrected hook is `Triggers.MatchClearsArgument`. Hook dispatch (`Hooks.RunHook`) keeps the source's behaviour, so the rest of the model describes what the analyzer actually does.

=== FILE: clears_param.dfy ===
/**
  The project's "clears argument" directives: a token stream of alternating
  function names and parameter numbers, read by `register_clears_param`.
  Reading the file and converting number text are not part of this model:
  the stream arrives already tokenized, and a number token carries its value.
 */
module ClearsParam {
  import opened Wrappers

  datatype Token =
    | StreamBegin
    | StreamEnd
    | Ident(name: string)
    | Number(value: int)
    | OtherToken

  /** One directive: calls of `fn` clear argument `param`. */
  datatype Directive = Directive(fn: string, param: int)

  /** The tokenizer always closes a stream with a `StreamEnd` token; the loop
      relies on it to stop. */
  predicate Terminated(ts: seq<Token>) {
    |ts| > 0 && ts[|ts| - 1] == StreamEnd
  }

  /** The token text of a list of directives, without the stream markers. */
  function Body(ds: seq<Directive>): (ts: seq<Token>)
    ensures |ts| == 2 * |ds|
  {
    if ds == [] then [] else [Ident(ds[0].fn), Number(ds[0].param)] + Body(ds[1..])
  }

  lemma BodyCons(d: Directive, ds: seq<Directive>)
    ensures Body([d] + ds) == [Ident(d.fn), Number(d.param)] + Body(ds)
  {
  }

  /** A whole directive stream for `ds`. */
  function Render(ds: seq<Directive>): seq<Token> {
    [StreamBegin] + Body(ds) + [StreamEnd]
  }

  /** The loop of `register_clears_param` over the tokens after
      `StreamBegin`: each identifier followed by a number is one directive;
      the end of the stream or the first token of the wrong kind stops it.
      The directives read are exactly the leading tokens, and the token after
      them ends the stream or is malformed. */
  function ParseTokens(ts: seq<Token>): (ds: seq<Directive>)
    requires Terminated(ts)
    ensures 2 * |ds| < |ts|
    ensures ts[.. 2 * |ds|] == Body(ds)
    ensures var j := 2 * |ds|;
            || ts[j] == StreamEnd
            || !ts[j].Ident?
            || !ts[j + 1].Number?
    decreases |ts|
  {
    if ts[0] == StreamEnd || !ts[0].Ident? || !ts[1].Number? then []
    else
      var d := Directive(ts[0].name, ts[1].value);
      var rest := ParseTokens(ts[2..]);
      BodyCons(d, rest);
      assert ts[.. 2 + 2 * |rest|] == [ts[0], ts[1]] + ts[2..][.. 2 * |rest|];
      [d] + rest
  }

  /** The directives of a stream; nothing when there is no stream or it does
      not open with `StreamBegin`. */
  function ParseDirectives(stream: Option<seq<Token>>): (ds: seq<Directive>)
    requires stream.Some? ==> Terminated(stream.value)
    ensures stream.None? ==> ds == []
    ensures stream.Some? && stream.value[0] != StreamBegin ==> ds == []
  {
    match stream
    case None => []
    case Some(ts) => if ts[0] != StreamBegin then [] else ParseTokens(ts[1..])
  }

  lemma OpenedStream(ts: seq<Token>, after: seq<Token>)
    requires ts == [StreamBegin] + after && Terminated(after)
    ensures Terminated(ts)
    ensures ParseDirectives(Some(ts)) == ParseTokens(after)
  {
  }

  /** Reading back a rendered stream gives the directives it was made of. */
  lemma ParseRender(ds: seq<Directive>)
    ensures ParseDirectives(Some(Render(ds))) == ds
  {
    OpenedBody(ds, [StreamEnd]);
  }

  /** A token of the wrong kind where a function name is expected stops the
      loop and keeps the directives read before it. */
  lemma {:induction false} MalformedKeepsEarlier(ds: seq<Directive>, bad: Token, rest: seq<Token>)
    requires !bad.Ident? && bad != StreamEnd
    requires Terminated(rest)
    ensures ParseDirectives(Some([StreamBegin] + Body(ds) + [bad] + rest)) == ds
  {
    var tail := [bad] + rest;
    ClosedAfter([bad], rest);
    NoDirectiveAtHead(tail);
    OpenedBody(ds, tail);
    assert [StreamBegin] + Body(ds) + [bad] + rest == [StreamBegin] + Body(ds) + tail;
  }

  /** A function name followed by a token that is not a number stops the
      loop as well, dropping that name and keeping the directives before it. */
  lemma {:induction false} MissingNumberKeepsEarlier(ds: seq<Directive>, f: string, bad: Token, rest: seq<Token>)
    requires !bad.Number?
    requires Terminated(rest)
    ensures ParseDirectives(Some([StreamBegin] + Body(ds) + [Ident(f), bad] + rest)) == ds
  {
    var tail := [Ident(f), bad] + rest;
    ClosedAfter([Ident(f), bad], rest);
    NoDirectiveAtHead(tail);
    OpenedBody(ds, tail);
    assert [StreamBegin] + Body(ds) + [Ident(f), bad] + rest == [StreamBegin] + Body(ds) + tail;
  }

  /** Tokens in front of a closed stream leave it closed. */
  lemma ClosedAfter(front: seq<Token>, rest: seq<Token>)
    requires Terminated(rest)
    ensures Terminated(front + rest)
  {
    assert (front + rest)[|front + rest| - 1] == rest[|rest| - 1];
  }

  /** A closed stream that does not start with a function name followed by
      a number yields no directive. */
  lemma NoDirectiveAtHead(ts: seq<Token>)
    requires Terminated(ts)
    requires ts[0] == StreamEnd || !ts[0].Ident? || !ts[1].Number?
    ensures ParseTokens(ts) == []
  {
  }

  /** An opened stream of directives followed by a closed tail that yields
      no directive reads back exactly those directives. */
  lemma {:induction false} OpenedBody(ds: seq<Directive>, tail: seq<Token>)
    requires Terminated(tail) && ParseTokens(tail) == []
    ensures Terminated([StreamBegin] + Body(ds) + tail)
    ensures ParseDirectives(Some([StreamBegin] + Body(ds) + tail)) == ds
  {
    ParseTail(ds, tail);
    AppendAssoc([StreamBegin], Body(ds), tail);
    OpenedStream([StreamBegin] + Body(ds) + tail, Body(ds) + tail);
  }

  lemma AppendAssoc(a: seq<Token>, b: seq<Token>, c: seq<Token>)
    ensures a + b + c == a + (b + c)
  {
  }

  /** Parsing the tokens of `ds` followed by a closed tail that itself parses
      to nothing gives back `ds`. */
  lemma {:induction false} ParseTail(ds: seq<Directive>, tail: seq<Token>)
    requires Terminated(tail) && ParseTokens(tail) == []
    ensures Terminated(Body(ds) + tail)
    ensures ParseTokens(Body(ds) + tail) == ds
    decreases |ds|
  {
    var ts := Body(ds) + tail;
    assert ts[|ts| - 1] == tail[|tail| - 1];
    if ds == [] {
      assert ts == tail;
    } else {
      BodyCons(ds[0], ds[1..]);
      assert [ds[0]] + ds[1..] == ds;
      assert ts == [Ident(ds[0].fn), Number(ds[0].param)] + (Body(ds[1..]) + tail);
      assert ts[2..] == Body(ds[1..]) + tail;
      ParseTail(ds[1..], tail);
    }
  }

  /** The file the directives are read from: `<project>.clears_argument`,
      cut to the 255 characters the 256-byte buffer holds. */
  function ClearsArgumentFile(project: string): (name: string)
    ensures |name| <= 255
    ensures name <= project + ".clears_argument"
    ensures |project| + 16 <= 255 ==> name == project + ".clears_argument"
    ensures |project| + 16 > 255 ==> |name| == 255
  {
    var full := project + ".clears_argument";
    if |full| <= 255 then full else full[..255]
  }
}

=== FILE: ctypes.dfy ===
/**
  The part of the analyzer's type system that the struct-assignment pass looks at.
  The type resolver itself is not part of this model: a resolved type is handed
  over as a value of `Type`.
 */
module CTypes {
  import opened Wrappers

  /** A resolved C type.  A struct carries the identity of its symbol (`sid`)
      next to its members in declaration order.  A struct that refers to
      itself through a member (`struct node *next`) is written as a finite
      unrolling: the inner copy carries the same `sid`, and `SameStruct`
      treats it as the same struct. */
  datatype Type =
    | Struct(sid: nat, members: seq<Field>)
    | Pointer(pointee: Type)
    | Array(elem: Type)
    | Scalar

  /** Two types are the same struct symbol.  The analyzer compares symbol
      pointers, which `sid` stands for, so two unrollings of one
      declaration are the same struct. */
  predicate SameStruct(a: Type, b: Type) {
    a.Struct? && b.Struct? && a.sid == b.sid
  }

  /** A struct member: its identifier (absent for an anonymous member) and its
      resolved base type (absent when the resolver has none). */
  datatype Field = Field(ident: Option<string>, ty: Option<Type>)

  /** The member test of the expander's loop: its base type exists and is an array. */
  predicate IsArrayField(f: Field) {
    f.ty.Some? && f.ty.value.Array?
  }

  /** The members the expander copies, in declaration order: every non-array member. */
  function Expandable(fs: seq<Field>): (r: seq<Field>)
    ensures |r| <= |fs|
  {
    if fs == [] then []
    else (if IsArrayField(fs[0]) then [] else [fs[0]]) + Expandable(fs[1..])
  }

  /** Filtering distributes over concatenation, so it keeps every non-array
      member once, in declaration order. */
  lemma {:induction false} ExpandableAppend(a: seq<Field>, b: seq<Field>)
    ensures Expandable(a + b) == Expandable(a) + Expandable(b)
  {
    if a != [] {
      assert (a + b)[0] == a[0];
      assert (a + b)[1..] == a[1..] + b;
      ExpandableAppend(a[1..], b);
    } else {
      assert a + b == b;
    }
  }

  /** A single member is copied exactly when it is not an array. */
  lemma ExpandableSingle(f: Field)
    ensures Expandable([f]) == (if IsArrayField(f) then [] else [f])
  {
    assert [f][1..] == [];
  }

  /** The copied members are exactly the non-array members. */
  lemma {:induction false} ExpandableMembers(fs: seq<Field>, f: Field)
    ensures f in Expandable(fs) <==> f in fs && !IsArrayField(f)
  {
    if fs != [] {
      ExpandableMembers(fs[1..], f);
      assert fs == [fs[0]] + fs[1..];
    }
  }
}

=== FILE: expansion_properties.dfy ===
/**
  What the struct-assignment expander promises, stated over all inputs:
  one assignment per non-array member in declaration order, the access kind
  on each side, the right-hand side each mode picks, the re-entrancy guard,
  and the relation between the call triggers and a plain struct assignment.
 */
module ExpansionProperties {
  import opened Wrappers
  import opened CTypes
  import opened Exprs
  import opened StructAssignment

  /** The `k`-th member the expander copies out of struct `st`. */
  function CopiedMember(st: Type, k: nat): Field
    requires st.Struct? && k < |Expandable(st.members)|
  {
    Expandable(st.members)[k]
  }

  /** The left member expression for member `f` of the struct `left` denotes. */
  function LeftMember(left: Expr, f: Field): Expr {
    var (b, op) := MemberAccess(Strip(left));
    MemberOf(b, op, f.ident, f.ty)
  }

  /** The right member expression for member `f` of the struct `right`
      denotes, an outer `&` stripped first. */
  function RightMemberOf(right: Expr, f: Field): Expr {
    var (b, op) := MemberAccess(RightBase(Strip(right)));
    MemberOf(b, op, f.ident, f.ty)
  }

  /** `e` is a member of the struct the (stripped) operand `operand`
      denotes, reached with the access kind the operand's type calls for. */
  predicate IsMemberOf(e: Expr, operand: Expr) {
    e.MemberOf? && (e.base, e.op) == MemberAccess(operand)
  }

  /** Exactly one assignment per non-array member, in declaration order, each
      assigning the member of the left operand named after that member. */
  lemma OneAssignmentPerMember(mode: Mode, left: Expr, right: Option<Expr>, st: Type)
    requires GetStructType(Strip(left)) == Some(st)
    ensures |Expand(mode, left, right, 0)| == |Expandable(st.members)|
    ensures forall k :: 0 <= k < |Expand(mode, left, right, 0)| ==>
              Expand(mode, left, right, 0)[k].assign.lhs == LeftMember(left, CopiedMember(st, k))
  {
    ExpandShape(mode, left, right, st);
  }

  /** Each step of an expansion entered at 0 is the member assignment of the
      corresponding copied member. */
  lemma ExpandShape(mode: Mode, left: Expr, right: Option<Expr>, st: Type)
    requires GetStructType(Strip(left)) == Some(st)
    ensures |Expand(mode, left, right, 0)| == |Expandable(st.members)|
    ensures forall k :: 0 <= k < |Expand(mode, left, right, 0)| ==>
              Expand(mode, left, right, 0)[k]
              == Step(MemberAssignment(mode, st, MemberAccess(Strip(left)).0, MemberAccess(Strip(left)).1,
                                       StripOpt(right), CopiedMember(st, k)), 1)
  {
    var (base, op) := MemberAccess(Strip(left));
    CopyMembersShape(st.members, mode, st, base, op, StripOpt(right), 0);
  }

  /** No array-typed member is ever assigned, and every assigned member is a
      member of the left operand's struct. */
  lemma ArrayMembersNeverCopied(mode: Mode, left: Expr, right: Option<Expr>, depth: int, k: nat)
    requires k < |Expand(mode, left, right, depth)|
    ensures var lhs := Expand(mode, left, right, depth)[k].assign.lhs;
            && lhs.MemberOf?
            && !IsArrayField(Field(lhs.ident, lhs.mty))
            && GetStructType(Strip(left)).Some?
            && Field(lhs.ident, lhs.mty) in GetStructType(Strip(left)).value.members
  {
    var st := GetStructType(Strip(left)).value;
    ExpandShape(mode, left, right, st);
    var f := CopiedMember(st, k);
    assert f in Expandable(st.members);
    ExpandableMembers(st.members, f);
  }

  /** The left side is `(*left).m` exactly when the left operand is a
      pointer, and `left.m` otherwise. */
  lemma LeftAccessKind(mode: Mode, left: Expr, right: Option<Expr>, depth: int, k: nat)
    requires k < |Expand(mode, left, right, depth)|
    ensures var lhs := Expand(mode, left, right, depth)[k].assign.lhs;
            && lhs.MemberOf?
            && (lhs.op == Star <==> IsPointer(Strip(left)))
            && (lhs.op == Star ==> lhs.base == Deref(Strip(left)))
            && (lhs.op == Dot ==> lhs.base == Strip(left))
  {
    ExpandShape(mode, left, right, GetStructType(Strip(left)).value);
  }

  /** In the copying modes a member's right side is the same-named member of
      the right operand exactly when the member is named and the right operand
      is the same struct symbol; otherwise it is the unknown value typed
      after the left member. */
  lemma CopyRightSide(mode: Mode, left: Expr, right: Option<Expr>, st: Type, k: nat)
    requires mode != CopyMemset
    requires GetStructType(Strip(left)) == Some(st)
    requires k < |Expand(mode, left, right, 0)|
    ensures var a := Expand(mode, left, right, 0)[k].assign;
            var f := CopiedMember(st, k);
            if && f.ident.Some? && right.Some? && GetStructType(Strip(right.value)).Some?
               && SameStruct(GetStructType(Strip(right.value)).value, st) then
              var (b, op) := MemberAccess(RightBase(Strip(right.value)));
              a.rhs == MemberOf(b, op, f.ident, f.ty)
            else
              a.rhs == UnknownValue(a.lhs)
  {
    ExpandShape(mode, left, right, st);
  }

  /** The right side is `(*right).m` exactly when the right operand, its `&`
      stripped, is a pointer. */
  lemma RightAccessKind(mode: Mode, left: Expr, right: Option<Expr>, st: Type, k: nat)
    requires mode != CopyMemset
    requires GetStructType(Strip(left)) == Some(st)
    requires k < |Expand(mode, left, right, 0)|
    requires !Expand(mode, left, right, 0)[k].assign.rhs.UnknownValue?
    ensures right.Some?
    ensures var rhs := Expand(mode, left, right, 0)[k].assign.rhs;
            var rb := RightBase(Strip(right.value));
            && rhs.MemberOf?
            && rhs.ident == CopiedMember(st, k).ident
            && (rhs.op == Star <==> IsPointer(rb))
            && (rhs.op == Star ==> rhs.base == Deref(rb))
            && (rhs.op == Dot ==> rhs.base == rb)
  {
    CopyRightSide(mode, left, right, st, k);
  }

  /** In memset mode every member gets the same fill expression, or the
      unknown value when there is none. */
  lemma MemsetRightSide(left: Expr, right: Option<Expr>, k: nat)
    requires k < |Expand(CopyMemset, left, right, 0)|
    ensures var a := Expand(CopyMemset, left, right, 0)[k].assign;
            a.rhs == (if right.Some? then Strip(right.value) else UnknownValue(a.lhs))
  {
    ExpandShape(CopyMemset, left, right, GetStructType(Strip(left)).value);
  }

  /** The expander does nothing while the counter is non-zero, and every
      assignment it hands to the evaluator is evaluated with the counter
      non-zero, so no expansion can start inside it. */
  lemma NestedExpansionSuppressed(mode: Mode, left: Expr, right: Option<Expr>, depth: int, k: nat,
                                  mode': Mode, left': Expr, right': Option<Expr>)
    requires k < |Expand(mode, left, right, depth)|
    ensures depth == 0
    ensures Expand(mode', left', right', Expand(mode, left, right, depth)[k].depth) == []
  {
  }

  /** Memcpy mode and normal mode produce the same assignments. */
  lemma {:induction false} MemcpyModeIsNormalMode(left: Expr, right: Option<Expr>, depth: int)
    ensures Expand(CopyMemcpy, left, right, depth) == Expand(CopyNormal, left, right, depth)
  {
    var a := Expand(CopyMemcpy, left, right, depth);
    var b := Expand(CopyNormal, left, right, depth);
    if depth == 0 && GetStructType(Strip(left)).Some? {
      var st := GetStructType(Strip(left)).value;
      ExpandShape(CopyMemcpy, left, right, st);
      ExpandShape(CopyNormal, left, right, st);
      forall k | 0 <= k < |a| ensures a[k] == b[k] {
        var f := CopiedMember(st, k);
        assert RightMember(CopyMemcpy, st, StripOpt(right), f) == RightMember(CopyNormal, st, StripOpt(right), f);
      }
    }
  }

  /** At any counter value, every left side of an expansion is a member of
      the left operand. */
  lemma EveryLeftSide(mode: Mode, left: Expr, right: Option<Expr>, depth: int)
    ensures forall k :: 0 <= k < |Expand(mode, left, right, depth)| ==>
              IsMemberOf(Expand(mode, left, right, depth)[k].assign.lhs, Strip(left))
  {
    if depth == 0 && GetStructType(Strip(left)).Some? {
      ExpandShape(mode, left, right, GetStructType(Strip(left)).value);
    }
  }

  /** At any counter value, memset mode assigns every member the fill
      expression, or the unknown value when there is none. */
  lemma EveryMemsetRightSide(left: Expr, right: Option<Expr>, depth: int)
    ensures forall k :: 0 <= k < |Expand(CopyMemset, left, right, depth)| ==>
              var a := Expand(CopyMemset, left, right, depth)[k].assign;
              a.rhs == (if right.Some? then Strip(right.value) else UnknownValue(a.lhs))
  {
    if depth == 0 && GetStructType(Strip(left)).Some? {
      ExpandShape(CopyMemset, left, right, GetStructType(Strip(left)).value);
    }
  }

  /** At any counter value, a copying mode assigns every member either the
      same-named member of the right operand or the unknown value, and only
      the unknown value when there is no right operand. */
  lemma EveryCopyRightSide(mode: Mode, left: Expr, right: Option<Expr>, depth: int)
    requires mode != CopyMemset
    ensures forall k :: 0 <= k < |Expand(mode, left, right, depth)| ==>
              var a := Expand(mode, left, right, depth)[k].assign;
              || a.rhs == UnknownValue(a.lhs)
              || (&& right.Some?
                  && IsMemberOf(a.rhs, RightBase(Strip(right.value)))
                  && a.lhs.MemberOf?
                  && a.rhs.ident.Some?
                  && a.rhs.ident == a.lhs.ident)
    ensures right.None? ==>
              forall k :: 0 <= k < |Expand(mode, left, right, depth)| ==>
                Expand(mode, left, right, depth)[k].assign.rhs
                == UnknownValue(Expand(mode, left, right, depth)[k].assign.lhs)
  {
    if depth == 0 && GetStructType(Strip(left)).Some? {
      var st := GetStructType(Strip(left)).value;
      ExpandShape(mode, left, right, st);
      forall k | 0 <= k < |Expand(mode, left, right, depth)|
        ensures var a := Expand(mode, left, right, depth)[k].assign;
                || a.rhs == UnknownValue(a.lhs)
                || (&& right.Some?
                    && IsMemberOf(a.rhs, RightBase(Strip(right.value)))
                    && a.lhs.MemberOf?
                    && a.rhs.ident.Some?
                    && a.rhs.ident == a.lhs.ident)
      {
        CopyRightSide(mode, left, right, st, k);
      }
    }
  }

  /** At any counter value: an expansion of a struct entered at 0 assigns
      the struct's copied members, one per step, in declaration order. */
  lemma EveryCopiedMember(mode: Mode, left: Expr, right: Option<Expr>, depth: int)
    ensures depth == 0 && GetStructType(Strip(left)).Some? ==>
              forall k :: 0 <= k < |Expand(mode, left, right, depth)| ==>
                Expand(mode, left, right, depth)[k].assign.lhs
                == LeftMember(left, CopiedMember(GetStructType(Strip(left)).value, k))
  {
    if depth == 0 && GetStructType(Strip(left)).Some? {
      OneAssignmentPerMember(mode, left, right, GetStructType(Strip(left)).value);
    }
  }

  /** At any counter value, in a copying mode: the `k`-th right side is the
      same-named member of the right operand exactly when that member is
      named and the right operand is the same struct symbol, and the unknown
      value otherwise. */
  lemma EveryCopyRightMember(mode: Mode, left: Expr, right: Option<Expr>, depth: int)
    requires mode != CopyMemset
    ensures depth == 0 && GetStructType(Strip(left)).Some? ==>
              var st := GetStructType(Strip(left)).value;
              forall k :: 0 <= k < |Expand(mode, left, right, depth)| ==>
                Expand(mode, left, right, depth)[k].assign.rhs
                == if && CopiedMember(st, k).ident.Some? && right.Some?
                      && GetStructType(Strip(right.value)).Some?
                      && SameStruct(GetStructType(Strip(right.value)).value, st)
                   then RightMemberOf(right.value, CopiedMember(st, k))
                   else UnknownValue(Expand(mode, left, right, depth)[k].assign.lhs)
  {
    if depth == 0 && GetStructType(Strip(left)).Some? {
      var st := GetStructType(Strip(left)).value;
      forall k | 0 <= k < |Expand(mode, left, right, depth)|
        ensures Expand(mode, left, right, depth)[k].assign.rhs
                == if && CopiedMember(st, k).ident.Some? && right.Some?
                      && GetStructType(Strip(right.value)).Some?
                      && SameStruct(GetStructType(Strip(right.value)).value, st)
                   then RightMemberOf(right.value, CopiedMember(st, k))
                   else UnknownValue(Expand(mode, left, right, depth)[k].assign.lhs)
      {
        CopyRightSide(mode, left, right, st, k);
      }
    }
  }
}

=== FILE: exprs.dfy ===
/**
  Expressions of the analyzed program, reduced to the node kinds the
  struct-assignment pass builds or inspects, and the AST builders it calls
  (`strip_expr`, `deref_expression`, `member_expression`,
  `unknown_value_expression`) as plain constructors.
 */
module Exprs {
  import opened Wrappers
  import opened CTypes

  /** The `op` of a member expression: `'.'` for direct access, `'*'` for
      access through a dereferenced pointer (the `->` form). */
  datatype Op = Dot | Star

  /** An expression node.  Leaves carry the type the resolver gave them. */
  datatype Expr =
    | Var(name: string, vty: Option<Type>)
    | Literal(value: int, lty: Option<Type>)
    | AddrOf(operand: Expr)
    | Deref(operand: Expr)
    | Paren(inner: Expr)
    | Cast(inner: Expr, cty: Option<Type>)
    | MemberOf(base: Expr, op: Op, ident: Option<string>, mty: Option<Type>)
    | UnknownValue(like: Expr)

  /** The type of an expression (`get_type`). */
  function TypeOf(e: Expr): Option<Type> {
    match e
    case Var(_, t) => t
    case Literal(_, t) => t
    case AddrOf(x) => (match TypeOf(x) case Some(t) => Some(Pointer(t)) case None => None)
    case Deref(x) => (match TypeOf(x) case Some(Pointer(t)) => Some(t) case _ => None)
    case Paren(x) => TypeOf(x)
    case Cast(_, t) => t
    case MemberOf(_, _, _, t) => t
    case UnknownValue(x) => TypeOf(x)
  }

  /** `is_pointer`: the expression's type is a pointer type. */
  predicate IsPointer(e: Expr) {
    TypeOf(e).Some? && TypeOf(e).value.Pointer?
  }

  predicate IsWrapped(e: Expr) {
    e.Paren? || e.Cast?
  }

  /** `strip_expr`: removes every layer of parentheses and casts. */
  function Strip(e: Expr): (r: Expr)
    ensures !IsWrapped(r)
    ensures !IsWrapped(e) ==> r == e
  {
    match e
    case Paren(x) => Strip(x)
    case Cast(x, _) => Strip(x)
    case _ => e
  }

  /** `strip_expr` on a pointer that may be NULL. */
  function StripOpt(e: Option<Expr>): (r: Option<Expr>)
    ensures r.Some? <==> e.Some?
    ensures e.Some? ==> r.value == Strip(e.value)
  {
    match e
    case Some(x) => Some(Strip(x))
    case None => None
  }

  lemma StripIdempotent(e: Expr)
    ensures Strip(Strip(e)) == Strip(e)
  {
  }

  /** `remove_addr`: strips the expression, then an outer `&` and what it wraps. */
  function RemoveAddr(e: Expr): (r: Expr)
    ensures !IsWrapped(r)
    ensures Strip(e).AddrOf? ==> r == Strip(Strip(e).operand)
    ensures !Strip(e).AddrOf? ==> r == Strip(e)
  {
    var s := Strip(e);
    if s.AddrOf? then Strip(s.operand) else s
  }

  /** The base and access kind for naming a member of the aggregate `e`
      denotes: `(*e).m` when `e` is a pointer, `e.m` otherwise. */
  function MemberAccess(e: Expr): (r: (Expr, Op))
    ensures r.1 == Star <==> IsPointer(e)
    ensures r.1 == Star ==> r.0 == Deref(e)
    ensures r.1 == Dot ==> r.0 == e
  {
    if IsPointer(e) then (Deref(e), Star) else (e, Dot)
  }
}

=== FILE: hooks.dfy ===
/**
  `register_struct_assignment`: the call hooks that start an expansion, and
  what running one of them on a call does.  The analyzer's global hook table
  is not part of this model: registration returns the hooks in the order
  they are added.
 */
module Hooks {
  import opened Wrappers
  import opened Exprs
  import opened StructAssignment
  import opened ClearsParam
  import ExpansionProperties
  import opened Triggers
  import CTypes

  /** The three callbacks of the pass. */
  datatype Callback = MemsetCallback | MemcpyCallback | MemcpyUnknownCallback

  /** `add_function_hook(fn, callback, param)`; a NULL parameter is 0. */
  datatype Hook = Hook(fn: string, callback: Callback, param: int)

  /** A MEMCPY-mode clearing hook per directive, in directive order. */
  function DirectiveHooks(ds: seq<Directive>): (hooks: seq<Hook>)
    ensures |hooks| == |ds|
    ensures forall k :: 0 <= k < |ds| ==> hooks[k] == Hook(ds[k].fn, MemcpyUnknownCallback, ds[k].param)
  {
    if ds == [] then [] else [Hook(ds[0].fn, MemcpyUnknownCallback, ds[0].param)] + DirectiveHooks(ds[1..])
  }

  /** Every token file the project configuration could supply is a closed stream. */
  predicate WellFormedFiles(files: map<string, seq<Token>>) {
    forall name :: name in files ==> Terminated(files[name])
  }

  /** The tokens of a file, when it exists (`get_tokens_file`). */
  function TokensFile(files: map<string, seq<Token>>, name: string): Option<seq<Token>> {
    if name in files then Some(files[name]) else None
  }

  /** `register_clears_param`: with no project nothing is registered;
      otherwise one clearing hook per directive of `<project>.clears_argument`. */
  function RegisterClearsParam(project: Option<string>, files: map<string, seq<Token>>): (hooks: seq<Hook>)
    requires WellFormedFiles(files)
    ensures project.None? ==> hooks == []
    ensures project.Some? && ClearsArgumentFile(project.value) !in files ==> hooks == []
    ensures project.Some? ==>
              var ds := ParseDirectives(TokensFile(files, ClearsArgumentFile(project.value)));
              && |hooks| == |ds|
              && forall k :: 0 <= k < |ds| ==> hooks[k] == Hook(ds[k].fn, MemcpyUnknownCallback, ds[k].param)
  {
    match project
    case None => []
    case Some(p) => DirectiveHooks(ParseDirectives(TokensFile(files, ClearsArgumentFile(p))))
  }

  /** `register_struct_assignment`: memset, memcpy and memmove first, then
      the project's clearing functions. */
  function RegisterStructAssignment(project: Option<string>, files: map<string, seq<Token>>): (hooks: seq<Hook>)
    requires WellFormedFiles(files)
    ensures |hooks| >= 3
    ensures hooks[0] == Hook("memset", MemsetCallback, 0)
    ensures hooks[1] == Hook("memcpy", MemcpyCallback, 0)
    ensures hooks[2] == Hook("memmove", MemcpyCallback, 0)
    ensures hooks[3..] == RegisterClearsParam(project, files)
  {
    [Hook("memset", MemsetCallback, 0), Hook("memcpy", MemcpyCallback, 0), Hook("memmove", MemcpyCallback, 0)]
      + RegisterClearsParam(project, files)
  }

  /** The call has the arguments the hook's callback dereferences. */
  predicate HasArguments(h: Hook, args: seq<Expr>) {
    match h.callback
    case MemsetCallback => |args| >= 1
    case MemcpyCallback => |args| >= 2
    case MemcpyUnknownCallback => |args| >= 1
  }

  /** Running a hook on a call with arguments `args`, the counter at `depth`. */
  function RunHook(h: Hook, args: seq<Expr>, depth: int): (trace: seq<Step>)
    requires HasArguments(h, args)
    ensures depth != 0 ==> trace == []
    ensures h.callback == MemsetCallback && GetStructType(RemoveAddr(Strip(args[0]))).None? ==> trace == []
    ensures h.callback == MemcpyUnknownCallback && GetStructType(RemoveAddr(args[0])).None? ==> trace == []
    ensures h.callback == MemsetCallback ==>
              && (depth == 0 && GetStructType(RemoveAddr(Strip(args[0]))).Some? ==>
                    var st := GetStructType(RemoveAddr(Strip(args[0]))).value;
                    && |trace| == |CTypes.Expandable(st.members)|
                    && forall k :: 0 <= k < |trace| ==>
                         trace[k].assign.lhs
                         == ExpansionProperties.LeftMember(RemoveAddr(Strip(args[0])), ExpansionProperties.CopiedMember(st, k)))
              && forall k :: 0 <= k < |trace| ==>
                   trace[k].assign.rhs == (if |args| >= 2 then Strip(args[1]) else UnknownValue(trace[k].assign.lhs))
    ensures h.callback == MemcpyCallback ==>
              trace == FakeStructMemberAssignments(Assign(RemoveAddr(args[0]), RemoveAddr(args[1])), depth)
    ensures h.callback == MemcpyUnknownCallback ==>
              && (depth == 0 && GetStructType(RemoveAddr(args[0])).Some? ==>
                    var st := GetStructType(RemoveAddr(args[0])).value;
                    && |trace| == |CTypes.Expandable(st.members)|
                    && forall k :: 0 <= k < |trace| ==>
                         trace[k].assign.lhs
                         == ExpansionProperties.LeftMember(RemoveAddr(args[0]), ExpansionProperties.CopiedMember(st, k)))
              && forall k :: 0 <= k < |trace| ==> trace[k].assign.rhs == UnknownValue(trace[k].assign.lhs)
  {
    match h.callback
    case MemsetCallback => MatchMemset(args, depth)
    case MemcpyCallback => MatchMemcpy(args, depth)
    case MemcpyUnknownCallback => MatchMemcpyUnknown(args, h.param, depth)
  }

  /** A hook registered for a directive runs the clearing callback: on a
      call whose argument 0 is a struct, every member of it becomes unknown,
      whichever argument the directive named. */
  lemma DirectiveHookClearsArgumentZero(project: string, files: map<string, seq<Token>>, k: nat,
                                        args: seq<Expr>, st: CTypes.Type)
    requires WellFormedFiles(files)
    requires 3 <= k < |RegisterStructAssignment(Some(project), files)|
    requires |args| >= 1 && GetStructType(RemoveAddr(args[0])) == Some(st)
    ensures var h := RegisterStructAssignment(Some(project), files)[k];
            var trace := RunHook(h, args, 0);
            && h.callback == MemcpyUnknownCallback
            && |trace| == |CTypes.Expandable(st.members)|
            && forall i :: 0 <= i < |trace| ==>
                 && trace[i].assign.lhs
                    == ExpansionProperties.LeftMember(RemoveAddr(args[0]), ExpansionProperties.CopiedMember(st, i))
                 && trace[i].assign.rhs == UnknownValue(trace[i].assign.lhs)
  {
    var hooks := RegisterStructAssignment(Some(project), files);
    assert hooks[k] == hooks[3..][k - 3];
    ClearerClearsArgumentZero(args, hooks[k].param, st);
  }
}

=== FILE: member_states.dfy ===
/**
  `known_struct_member_states`: does the current state list already track a
  member of a variable?  The state list (`__get_cur_slist`) and the naming of
  expressions (`expr_to_var`) are not part of this model: the list is an
  input and the naming is a function parameter.
 */
module MemberStates {
  import opened Wrappers
  import opened Exprs

  /** A C string: characters up to, and not including, the terminating NUL. */
  type CStr = s: string | forall i :: 0 <= i < |s| ==> s[i] != '\0'

  /** The character at index `i` of a C string, reading the terminator (and
      nothing further) past its end. */
  function At(s: CStr, i: nat): (c: char)
    ensures c == '\0' <==> i >= |s|
  {
    if i < |s| then s[i] else '\0'
  }

  /** The first `k` characters of `a` and `b` agree. */
  ghost predicate AgreeBelow(a: CStr, b: CStr, k: nat) {
    forall i :: 0 <= i < k ==> At(a, i) == At(b, i)
  }

  /** `a` and `b` first differ at `k`, with `a` smaller there. */
  ghost predicate LessAt(a: CStr, b: CStr, k: nat) {
    AgreeBelow(a, b, k) && At(a, k) < At(b, k)
  }

  /** `strncmp(a, b, n)` from index `i` on, as a sign -1, 0 or 1. */
  function StrncmpFrom(a: CStr, b: CStr, i: nat, n: nat): (r: int)
    requires AgreeBelow(a, b, i)
    ensures -1 <= r <= 1
    ensures r == 0 <==> AgreeBelow(a, b, n)
    ensures r < 0 <==> exists k :: i <= k < n && LessAt(a, b, k)
    ensures r > 0 <==> exists k :: i <= k < n && LessAt(b, a, k)
    decreases n - i
  {
    if i >= n then 0
    else if At(a, i) < At(b, i) then
      assert LessAt(a, b, i);
      -1
    else if At(a, i) > At(b, i) then
      assert LessAt(b, a, i);
      1
    else if At(a, i) == '\0' then
      assert AgreeBelow(a, b, n);
      0
    else StrncmpFrom(a, b, i + 1, n)
  }

  /** `strncmp(a, b, n)`: compares at most `n` characters, stopping at the
      first difference or at a terminator both strings share. */
  function Strncmp(a: CStr, b: CStr, n: nat): (r: int)
    ensures r == 0 <==> AgreeBelow(a, b, n)
    ensures r < 0 <==> exists k :: 0 <= k < n && LessAt(a, b, k)
    ensures r > 0 <==> exists k :: 0 <= k < n && LessAt(b, a, k)
  {
    StrncmpFrom(a, b, 0, n)
  }

  /** `strcmp(a, b)`: the ordering the state list is sorted by. */
  function Strcmp(a: CStr, b: CStr): int {
    Strncmp(a, b, if |a| < |b| then |b| + 1 else |a| + 1)
  }

  /** The owner of a tracked state; only `SMATCH_EXTRA` states matter here. */
  datatype Owner = SmatchExtra | OtherOwner(id: nat)

  /** One entry of the state list: its owner and the variable path it tracks. */
  datatype SmState = SmState(owner: Owner, name: CStr)

  /** The `SMATCH_EXTRA` entries of the list come in `strcmp` order, as the
      state list keeps them. */
  ghost predicate ExtraSortedByName(states: seq<SmState>) {
    forall i, j :: 0 <= i < j < |states| && states[i].owner == SmatchExtra && states[j].owner == SmatchExtra
                   ==> Strcmp(states[i].name, states[j].name) <= 0
  }

  /** The delimiter test of the probe, as written: `.` or `-`. */
  predicate IsDelimiter(c: char) {
    c == '.' || c == '-' || c == '.'
  }

  /** `sm` is a `SMATCH_EXTRA` state of a member of the variable `name`: its
      path is `name` followed by a delimiter. */
  ghost predicate IsMemberStateOf(sm: SmState, name: CStr) {
    && sm.owner == SmatchExtra
    && |sm.name| > |name|
    && sm.name[..|name|] == name
    && IsDelimiter(sm.name[|name|])
  }

  /** The scan of `known_struct_member_states` over the list. */
  function ScanMemberStates(states: seq<SmState>, name: CStr): (found: bool)
    ensures found ==> exists i :: 0 <= i < |states| && IsMemberStateOf(states[i], name)
  {
    if states == [] then false
    else
      var sm := states[0];
      if sm.owner != SmatchExtra then ScanMemberStates(states[1..], name)
      else
        var cmp := Strncmp(sm.name, name, |name|);
        if cmp < 0 then ScanMemberStates(states[1..], name)
        else if cmp == 0 then
          if IsDelimiter(At(sm.name, |name|)) then
            PrefixAgreement(sm.name, name);
            assert IsMemberStateOf(states[0], name);
            true
          else ScanMemberStates(states[1..], name)
        else false
  }

  /** `strncmp(a, b, |b|) == 0` with a non-terminator after it says `b` is a
      proper prefix of `a`. */
  lemma PrefixAgreement(a: CStr, b: CStr)
    requires AgreeBelow(a, b, |b|)
    requires At(a, |b|) != '\0'
    ensures |a| > |b| && a[..|b|] == b
  {
    forall i | 0 <= i < |b| ensures a[i] == b[i] {
      assert At(a, i) == At(b, i);
    }
  }

  /** An entry that sorts no later than one extending `name` does not compare
      greater than `name` on its first `|name|` characters. */
  lemma SortsBeforeExtension(a: CStr, w: CStr, name: CStr)
    requires Strcmp(a, w) <= 0
    requires |w| > |name| && w[..|name|] == name
    ensures Strncmp(a, name, |name|) <= 0
  {
  }

  /** On a list kept in name order the scan finds every member state. */
  lemma {:induction false} ScanComplete(states: seq<SmState>, name: CStr, j: nat)
    requires ExtraSortedByName(states)
    requires j < |states| && IsMemberStateOf(states[j], name)
    ensures ScanMemberStates(states, name)
  {
    var sm := states[0];
    if j == 0 {
      assert AgreeBelow(sm.name, name, |name|) by {
        forall i | 0 <= i < |name| ensures At(sm.name, i) == At(name, i) {
          assert sm.name[..|name|][i] == sm.name[i];
        }
      }
      assert At(sm.name, |name|) == sm.name[|name|];
    } else {
      assert ExtraSortedByName(states[1..]) by {
        forall i, i' | 0 <= i < i' < |states[1..]|
          ensures states[1..][i].owner == SmatchExtra && states[1..][i'].owner == SmatchExtra
                  ==> Strcmp(states[1..][i].name, states[1..][i'].name) <= 0
        {
          assert states[1..][i] == states[i + 1] && states[1..][i'] == states[i' + 1];
        }
      }
      assert states[1..][j - 1] == states[j];
      ScanComplete(states[1..], name, j - 1);
      if sm.owner == SmatchExtra {
        SortsBeforeExtension(sm.name, states[j].name, name);
      }
    }
  }

  /** The name the probe looks for: the variable's name after an outer `&`
      is stripped, or nothing when the expression names no variable. */
  function ProbeName(e: Expr, exprToVar: Expr -> Option<CStr>): Option<CStr> {
    exprToVar(if e.AddrOf? then Strip(e.operand) else e)
  }

  /** `known_struct_member_states`: whether some member of the variable `e`
      names is already tracked in `states`. */
  function KnownStructMemberStates(e: Expr, states: seq<SmState>, exprToVar: Expr -> Option<CStr>): (known: bool)
    ensures ProbeName(e, exprToVar).None? ==> !known
    ensures known ==> exists i :: 0 <= i < |states| && IsMemberStateOf(states[i], ProbeName(e, exprToVar).value)
  {
    match ProbeName(e, exprToVar)
    case None => false
    case Some(name) => ScanMemberStates(states, name)
  }

  /** On a name-sorted list the probe answers exactly whether a member state
      of the variable exists. */
  lemma KnownStructMemberStatesIff(e: Expr, states: seq<SmState>, exprToVar: Expr -> Option<CStr>)
    requires ExtraSortedByName(states)
    ensures KnownStructMemberStates(e, states, exprToVar) <==>
              && ProbeName(e, exprToVar).Some?
              && exists i :: 0 <= i < |states| && IsMemberStateOf(states[i], ProbeName(e, exprToVar).value)
  {
    if ProbeName(e, exprToVar).Some? {
      var name := ProbeName(e, exprToVar).value;
      if j :| 0 <= j < |states| && IsMemberStateOf(states[j], name) {
        ScanComplete(states, name, j);
      }
    }
  }

  /** An entry that matches the name on its first `|name|` characters but is
      not followed by a delimiter (the whole variable's own state among them)
      is skipped: the answer is that of the rest of the list. */
  lemma ScanSkipsPrefixWithoutDelimiter(sm: SmState, rest: seq<SmState>, name: CStr)
    requires sm.owner == SmatchExtra
    requires Strncmp(sm.name, name, |name|) == 0
    requires !IsDelimiter(At(sm.name, |name|))
    ensures ScanMemberStates([sm] + rest, name) == ScanMemberStates(rest, name)
  {
    assert ([sm] + rest)[0] == sm;
    assert ([sm] + rest)[1..] == rest;
  }

  /** A state of the whole variable is never itself reported as a member state. */
  lemma WholeVariableIsNotMember(name: CStr, rest: seq<SmState>)
    ensures ScanMemberStates([SmState(SmatchExtra, name)] + rest, name) == ScanMemberStates(rest, name)
  {
    ScanSkipsPrefixWithoutDelimiter(SmState(SmatchExtra, name), rest, name);
  }

  /** The scan answers false at the first `SMATCH_EXTRA` entry that compares
      greater than the name on its first `|name|` characters, wherever it
      sits, when no member state comes before it; whatever follows it is
      never looked at. */
  lemma {:induction false} ScanStopsAtLaterName(states: seq<SmState>, name: CStr, j: nat)
    requires j < |states| && states[j].owner == SmatchExtra
    requires Strncmp(states[j].name, name, |name|) > 0
    requires forall i :: 0 <= i < j ==> !IsMemberStateOf(states[i], name)
    ensures !ScanMemberStates(states, name)
  {
    var sm := states[0];
    if j > 0 {
      assert !IsMemberStateOf(sm, name);
      if sm.owner == SmatchExtra && Strncmp(sm.name, name, |name|) == 0 && IsDelimiter(At(sm.name, |name|)) {
        PrefixAgreement(sm.name, name);
        assert false;
      }
      assert states[1..][j - 1] == states[j];
      forall i | 0 <= i < j - 1 ensures !IsMemberStateOf(states[1..][i], name) {
        assert states[1..][i] == states[i + 1];
      }
      ScanStopsAtLaterName(states[1..], name, j - 1);
    }
  }
}

=== FILE: struct_assignment.dfy ===
/**
  The struct-assignment pass: a whole-struct copy (`one = two;`, `p1 = p2;`,
  `memcpy`, `memmove`, `memset`, or a project function that clears an
  argument) becomes one fake assignment per struct member, handed to the
  evaluator one at a time.

  The evaluator (`__split_expr`) is not part of this model: handing it an
  assignment is modelled as appending a `Step` to the returned trace, and the
  re-entrancy counter `__in_fake_assign` is threaded through explicitly.
 */
module StructAssignment {
  import opened Wrappers
  import opened CTypes
  import opened Exprs

  /** `COPY_NORMAL`, `COPY_MEMCPY`, `COPY_MEMSET`. */
  datatype Mode = CopyNormal | CopyMemcpy | CopyMemset

  /** An assignment expression `lhs = rhs` (`assign_expression`). */
  datatype Assignment = Assign(lhs: Expr, rhs: Expr)

  /** One fake assignment handed to the evaluator, with the value the
      re-entrancy counter held while the evaluator ran on it. */
  datatype Step = Step(assign: Assignment, depth: int)

  /** `get_struct_type`: the struct an expression denotes, looking through at
      most one pointer level. */
  function GetStructType(e: Expr): (r: Option<Type>)
    ensures r.Some? <==>
              TypeOf(e).Some? &&
              (TypeOf(e).value.Struct? ||
               (TypeOf(e).value.Pointer? && TypeOf(e).value.pointee.Struct?))
    ensures r.Some? ==> r.value.Struct? &&
                        (TypeOf(e) == Some(r.value) || TypeOf(e) == Some(Pointer(r.value)))
  {
    match TypeOf(e)
    case None => None
    case Some(t) =>
      var t' := if t.Pointer? then t.pointee else t;
      if t'.Struct? then Some(t') else None
  }

  /** The right-hand operand `get_matching_member_expr` names a member of:
      the operand with an outer `&` stripped. */
  function RightBase(right: Expr): Expr {
    if right.AddrOf? then Strip(right.operand) else right
  }

  /** `get_matching_member_expr`: `right.m` or `(*right).m` for the member `m`,
      when the member has a name and `right` denotes the same struct symbol
      as `leftType`; nothing otherwise (also when there is no `right` at all). */
  function GetMatchingMemberExpr(leftType: Type, right: Option<Expr>, member: Field): (r: Option<Expr>)
    ensures r.Some? <==>
              && member.ident.Some? && right.Some? && GetStructType(right.value).Some?
              && SameStruct(GetStructType(right.value).value, leftType)
    ensures r.Some? ==>
              var (b, op) := MemberAccess(RightBase(right.value));
              r.value == MemberOf(b, op, member.ident, member.ty)
  {
    if member.ident.None? then None
    else if right.None? then None
    else
      match GetStructType(right.value)
      case None => None
      case Some(st) =>
        if !SameStruct(st, leftType) then None
        else
          var (b, op) := MemberAccess(RightBase(right.value));
          Some(MemberOf(b, op, member.ident, member.ty))
  }

  /** The right-hand side the mode picks for one member, before the
      unknown-value fallback. */
  function RightMember(mode: Mode, structType: Type, right: Option<Expr>, f: Field): Option<Expr> {
    match mode
    case CopyNormal => GetMatchingMemberExpr(structType, right, f)
    case CopyMemcpy => GetMatchingMemberExpr(structType, right, f)
    case CopyMemset => right
  }

  /** The fake assignment for member `f`, the left side reached from `base`
      with access kind `op`; a missing right side becomes the unknown value
      typed after the left member. */
  function MemberAssignment(mode: Mode, structType: Type, base: Expr, op: Op,
                            right: Option<Expr>, f: Field): (a: Assignment)
    ensures a.lhs == MemberOf(base, op, f.ident, f.ty)
    ensures mode == CopyMemset ==> a.rhs == (if right.Some? then right.value else UnknownValue(a.lhs))
    ensures mode != CopyMemset ==>
              a.rhs == if && f.ident.Some? && right.Some? && GetStructType(right.value).Some?
                          && SameStruct(GetStructType(right.value).value, structType)
                       then MemberOf(MemberAccess(RightBase(right.value)).0,
                                     MemberAccess(RightBase(right.value)).1, f.ident, f.ty)
                       else UnknownValue(a.lhs)
  {
    var lhs := MemberOf(base, op, f.ident, f.ty);
    match RightMember(mode, structType, right, f)
    case Some(rhs) => Assign(lhs, rhs)
    case None => Assign(lhs, UnknownValue(lhs))
  }

  /** What one pass of the member loop hands the evaluator: nothing for an
      array member, the member's assignment otherwise. */
  function MemberSteps(f: Field, mode: Mode, structType: Type, base: Expr, op: Op,
                       right: Option<Expr>, depth: int): seq<Step>
  {
    if IsArrayField(f) then [] else [StepFor(f, mode, structType, base, op, right, depth)]
  }

  /** The loop of `__struct_members_copy` over the members `fs`, started with
      the counter at `depth`. */
  function CopyMembers(fs: seq<Field>, mode: Mode, structType: Type, base: Expr, op: Op,
                       right: Option<Expr>, depth: int): seq<Step>
  {
    if fs == [] then []
    else
      MemberSteps(fs[0], mode, structType, base, op, right, depth)
      + CopyMembers(fs[1..], mode, structType, base, op, right, depth)
  }

  /** The step for member `f`, evaluated with the counter at `depth + 1`. */
  function StepFor(f: Field, mode: Mode, structType: Type, base: Expr, op: Op,
                   right: Option<Expr>, depth: int): Step
  {
    Step(MemberAssignment(mode, structType, base, op, right, f), depth + 1)
  }

  /** The loop emits one step per non-array member, in declaration order,
      each evaluated with the counter one above its entry value. */
  lemma {:induction false} CopyMembersShape(fs: seq<Field>, mode: Mode, structType: Type, base: Expr, op: Op,
                                            right: Option<Expr>, depth: int)
    ensures var steps := CopyMembers(fs, mode, structType, base, op, right, depth);
            && |steps| == |Expandable(fs)|
            && forall k :: 0 <= k < |steps| ==>
                 steps[k] == StepFor(Expandable(fs)[k], mode, structType, base, op, right, depth)
  {
    if fs != [] {
      CopyMembersShape(fs[1..], mode, structType, base, op, right, depth);
      var steps := CopyMembers(fs, mode, structType, base, op, right, depth);
      var tail := CopyMembers(fs[1..], mode, structType, base, op, right, depth);
      var e := Expandable(fs);
      var et := Expandable(fs[1..]);
      if IsArrayField(fs[0]) {
        assert steps == tail;
        assert e == et;
      } else {
        assert steps == [StepFor(fs[0], mode, structType, base, op, right, depth)] + tail;
        assert e == [fs[0]] + et;
        forall k | 1 <= k < |steps|
          ensures steps[k] == StepFor(e[k], mode, structType, base, op, right, depth)
        {
          assert steps[k] == tail[k - 1];
          assert e[k] == et[k - 1];
        }
      }
    }
  }

  /** `__struct_members_copy` as a function: the fake assignments handed to
      the evaluator when the expander is entered with the counter at `depth`.
      The counter is back at `depth` when the expander returns (see
      `StructMembersCopy`). */
  function Expand(mode: Mode, left: Expr, right: Option<Expr>, depth: int): (trace: seq<Step>)
    ensures depth != 0 ==> trace == []
    ensures GetStructType(Strip(left)).None? ==> trace == []
    ensures depth == 0 && GetStructType(Strip(left)).Some? ==>
              |trace| == |Expandable(GetStructType(Strip(left)).value.members)|
    ensures forall k :: 0 <= k < |trace| ==> trace[k].depth == depth + 1 && trace[k].depth != 0
  {
    if depth != 0 then []
    else
      var l := Strip(left);
      var r := StripOpt(right);
      match GetStructType(l)
      case None => []
      case Some(st) =>
        var (base, op) := MemberAccess(l);
        CopyMembersShape(st.members, mode, st, base, op, r, depth);
        CopyMembers(st.members, mode, st, base, op, r, depth)
  }

  /** Appending one member to the loop's input appends that member's step. */
  lemma {:induction false} CopyMembersSnoc(fs: seq<Field>, f: Field, mode: Mode, structType: Type,
                                           base: Expr, op: Op, right: Option<Expr>, depth: int)
    ensures CopyMembers(fs + [f], mode, structType, base, op, right, depth)
         == CopyMembers(fs, mode, structType, base, op, right, depth)
            + MemberSteps(f, mode, structType, base, op, right, depth)
  {
    if fs == [] {
      assert fs + [f] == [f];
      assert [f][1..] == [];
    } else {
      assert (fs + [f])[0] == fs[0];
      assert (fs + [f])[1..] == fs[1..] + [f];
      CopyMembersSnoc(fs[1..], f, mode, structType, base, op, right, depth);
    }
  }

  lemma CopyMembersNext(members: seq<Field>, i: nat, mode: Mode, structType: Type,
                        base: Expr, op: Op, right: Option<Expr>, depth: int)
    requires i < |members|
    ensures CopyMembers(members[..i + 1], mode, structType, base, op, right, depth)
         == CopyMembers(members[..i], mode, structType, base, op, right, depth)
            + MemberSteps(members[i], mode, structType, base, op, right, depth)
  {
    assert members[..i + 1] == members[..i] + [members[i]];
    CopyMembersSnoc(members[..i], members[i], mode, structType, base, op, right, depth);
  }

  /** The member loop of `__struct_members_copy` as the C code runs it: the
      counter is incremented before and decremented after each assignment
      handed to the evaluator. */
  method CopyMembersLoop(members: seq<Field>, mode: Mode, structType: Type, base: Expr, op: Op,
                         right: Option<Expr>, inFakeAssign: int)
    returns (trace: seq<Step>, counter: int)
    ensures counter == inFakeAssign
    ensures trace == CopyMembers(members, mode, structType, base, op, right, inFakeAssign)
  {
    counter := inFakeAssign;
    trace := [];
    var i := 0;
    while i < |members|
      invariant 0 <= i <= |members|
      invariant counter == inFakeAssign
      invariant trace == CopyMembers(members[..i], mode, structType, base, op, right, inFakeAssign)
    {
      var f := members[i];
      ghost var before := trace;
      if !IsArrayField(f) {
        var assign := MemberAssignment(mode, structType, base, op, right, f);
        counter := counter + 1;
        trace := trace + [Step(assign, counter)];
        counter := counter - 1;
      }
      assert trace == before + MemberSteps(f, mode, structType, base, op, right, inFakeAssign);
      CopyMembersNext(members, i, mode, structType, base, op, right, inFakeAssign);
      i := i + 1;
    }
    assert members[..i] == members;
  }

  /** `__struct_members_copy` as the C code runs it, with the counter
      `__in_fake_assign` passed in and returned.  Returns the trace and the
      counter's value on return. */
  method StructMembersCopy(mode: Mode, left: Expr, right: Option<Expr>, inFakeAssign: int)
    returns (trace: seq<Step>, counter: int)
    ensures counter == inFakeAssign
    ensures trace == Expand(mode, left, right, inFakeAssign)
  {
    counter := inFakeAssign;
    trace := [];
    if counter != 0 {
      return;
    }
    var l := Strip(left);
    var r := StripOpt(right);
    var st := GetStructType(l);
    if st.None? {
      return;
    }
    var base, op := l, Dot;
    if IsPointer(l) {
      base, op := Deref(l), Star;
    }
    trace, counter := CopyMembersLoop(st.value.members, mode, st.value, base, op, r, counter);
  }
}

=== FILE: triggers.dfy ===
/**
  The entry points that start an expansion: a direct struct assignment
  statement, and the `memset`, `memcpy`/`memmove` and configured clearing
  call hooks.  Each hands the expander its operands and mode; their
  contracts say which member assignments come out.
 */
module Triggers {
  import opened Wrappers
  import opened CTypes
  import opened Exprs
  import opened StructAssignment
  import opened ExpansionProperties

  /** `__fake_struct_member_assignments`: a direct struct assignment
      statement `lhs = rhs` becomes one assignment per non-array member of
      `lhs`, in declaration order, each from the same-named member of `rhs`
      when `rhs` is the same struct, or the unknown value otherwise. */
  function FakeStructMemberAssignments(a: Assignment, depth: int): (trace: seq<Step>)
    ensures depth != 0 || GetStructType(Strip(a.lhs)).None? ==> trace == []
    ensures depth == 0 && GetStructType(Strip(a.lhs)).Some? ==>
              var st := GetStructType(Strip(a.lhs)).value;
              && |trace| == |Expandable(st.members)|
              && forall k :: 0 <= k < |trace| ==>
                   && trace[k].assign.lhs == LeftMember(a.lhs, CopiedMember(st, k))
                   && trace[k].assign.rhs
                      == if && CopiedMember(st, k).ident.Some?
                            && GetStructType(Strip(a.rhs)).Some?
                            && SameStruct(GetStructType(Strip(a.rhs)).value, st)
                         then RightMemberOf(a.rhs, CopiedMember(st, k))
                         else UnknownValue(trace[k].assign.lhs)
  {
    EveryCopiedMember(CopyNormal, a.lhs, Some(a.rhs), depth);
    EveryCopyRightMember(CopyNormal, a.lhs, Some(a.rhs), depth);
    Expand(CopyNormal, a.lhs, Some(a.rhs), depth)
  }

  /** `get_argument_from_call_expr`: the `n`-th call argument, if the call has one. */
  function Argument(args: seq<Expr>, n: int): (r: Option<Expr>)
    ensures r.Some? <==> 0 <= n < |args|
    ensures r.Some? ==> r.value == args[n]
  {
    if 0 <= n < |args| then Some(args[n]) else None
  }

  /** `match_memset`: `memset(buf, val, size)` sets every non-array member of
      `*buf` (or of `v` when `buf` is `&v`), in declaration order, to `val`,
      or to the unknown value when the call has no second argument.  The
      buffer argument must be there: the source dereferences it. */
  function MatchMemset(args: seq<Expr>, depth: int): (trace: seq<Step>)
    requires |args| >= 1
    ensures depth != 0 || GetStructType(RemoveAddr(Strip(args[0]))).None? ==> trace == []
    ensures depth == 0 && GetStructType(RemoveAddr(Strip(args[0]))).Some? ==>
              var st := GetStructType(RemoveAddr(Strip(args[0]))).value;
              && |trace| == |Expandable(st.members)|
              && forall k :: 0 <= k < |trace| ==>
                   trace[k].assign.lhs == LeftMember(RemoveAddr(Strip(args[0])), CopiedMember(st, k))
    ensures forall k :: 0 <= k < |trace| ==>
              trace[k].assign.rhs == (if |args| >= 2 then Strip(args[1]) else UnknownValue(trace[k].assign.lhs))
  {
    EveryCopiedMember(CopyMemset, RemoveAddr(Strip(args[0])), Argument(args, 1), depth);
    EveryMemsetRightSide(RemoveAddr(Strip(args[0])), Argument(args, 1), depth);
    Expand(CopyMemset, RemoveAddr(Strip(args[0])), Argument(args, 1), depth)
  }

  /** `match_memcpy`: `memcpy(dest, src, size)` and `memmove` are the
      struct assignment `dest = src` with `&` stripped from both sides.
      Both arguments must be there: the source dereferences them. */
  function MatchMemcpy(args: seq<Expr>, depth: int): (trace: seq<Step>)
    requires |args| >= 2
    ensures trace == FakeStructMemberAssignments(Assign(RemoveAddr(args[0]), RemoveAddr(args[1])), depth)
  {
    MemcpyModeIsNormalMode(RemoveAddr(args[0]), Some(RemoveAddr(args[1])), depth);
    Expand(CopyMemcpy, RemoveAddr(args[0]), Some(RemoveAddr(args[1])), depth)
  }

  /** `match_memcpy_unknown`, as written: the hook's parameter index is
      ignored, every non-array member of argument 0 becomes unknown, in
      declaration order, and there is no source. */
  function MatchMemcpyUnknown(args: seq<Expr>, param: int, depth: int): (trace: seq<Step>)
    requires |args| >= 1
    ensures depth != 0 || GetStructType(RemoveAddr(args[0])).None? ==> trace == []
    ensures depth == 0 && GetStructType(RemoveAddr(args[0])).Some? ==>
              var st := GetStructType(RemoveAddr(args[0])).value;
              && |trace| == |Expandable(st.members)|
              && forall k :: 0 <= k < |trace| ==>
                   trace[k].assign.lhs == LeftMember(RemoveAddr(args[0]), CopiedMember(st, k))
    ensures forall k :: 0 <= k < |trace| ==> trace[k].assign.rhs == UnknownValue(trace[k].assign.lhs)
  {
    EveryCopiedMember(CopyMemcpy, RemoveAddr(args[0]), None, depth);
    EveryCopyRightSide(CopyMemcpy, RemoveAddr(args[0]), None, depth);
    Expand(CopyMemcpy, RemoveAddr(args[0]), None, depth)
  }

  /** The clearing hook as its registration evidently intends: every
      non-array member of argument number `param` becomes unknown, in
      declaration order.  The argument must be there. */
  function MatchClearsArgument(args: seq<Expr>, param: int, depth: int): (trace: seq<Step>)
    requires 0 <= param < |args|
    ensures depth != 0 || GetStructType(RemoveAddr(args[param])).None? ==> trace == []
    ensures depth == 0 && GetStructType(RemoveAddr(args[param])).Some? ==>
              var st := GetStructType(RemoveAddr(args[param])).value;
              && |trace| == |Expandable(st.members)|
              && forall k :: 0 <= k < |trace| ==>
                   trace[k].assign.lhs == LeftMember(RemoveAddr(args[param]), CopiedMember(st, k))
    ensures forall k :: 0 <= k < |trace| ==> trace[k].assign.rhs == UnknownValue(trace[k].assign.lhs)
  {
    EveryCopiedMember(CopyMemcpy, RemoveAddr(args[param]), None, depth);
    EveryCopyRightSide(CopyMemcpy, RemoveAddr(args[param]), None, depth);
    Expand(CopyMemcpy, RemoveAddr(args[param]), None, depth)
  }

  /** `memcpy(&dst, &src, n)` hands the evaluator the same assignments as the
      statement `dst = src;`. */
  lemma MemcpyIsStructAssignment(dst: Expr, src: Expr, rest: seq<Expr>, depth: int)
    ensures MatchMemcpy([AddrOf(dst), AddrOf(src)] + rest, depth)
         == FakeStructMemberAssignments(Assign(dst, src), depth)
  {
    StripIdempotent(dst);
    StripIdempotent(src);
    MemcpyModeIsNormalMode(Strip(dst), Some(Strip(src)), depth);
  }

  /** `memset(&v, c, n)` on a struct `v`: one assignment `v.m = c` per
      non-array member, in declaration order. */
  lemma MemsetFillsEveryMember(v: Expr, c: Expr, rest: seq<Expr>, st: Type)
    requires GetStructType(Strip(v)) == Some(st)
    ensures var trace := MatchMemset([AddrOf(v), c] + rest, 0);
            && |trace| == |Expandable(st.members)|
            && forall k :: 0 <= k < |trace| ==>
                 trace[k].assign == Assign(LeftMember(v, CopiedMember(st, k)), Strip(c))
  {
    StripIdempotent(v);
    var trace := MatchMemset([AddrOf(v), c] + rest, 0);
    forall k | 0 <= k < |trace|
      ensures trace[k].assign == Assign(LeftMember(v, CopiedMember(st, k)), Strip(c))
    {
      MemsetRightSide(Strip(v), Some(c), k);
      OneAssignmentPerMember(CopyMemset, Strip(v), Some(c), st);
    }
  }

  /** A configured clearing call, as the source runs it: every member of the
      struct argument 0 denotes becomes unknown, whatever parameter index the
      hook was registered with. */
  lemma ClearerClearsArgumentZero(args: seq<Expr>, param: int, st: Type)
    requires |args| >= 1
    requires GetStructType(RemoveAddr(args[0])) == Some(st)
    ensures var trace := MatchMemcpyUnknown(args, param, 0);
            && |trace| == |Expandable(st.members)|
            && forall k :: 0 <= k < |trace| ==>
                 && trace[k].assign.lhs == LeftMember(RemoveAddr(args[0]), CopiedMember(st, k))
                 && trace[k].assign.rhs == UnknownValue(trace[k].assign.lhs)
  {
    var trace := MatchMemcpyUnknown(args, param, 0);
    StripIdempotent(RemoveAddr(args[0]));
    OneAssignmentPerMember(CopyMemcpy, RemoveAddr(args[0]), None, st);
    forall k | 0 <= k < |trace|
      ensures trace[k].assign.rhs == UnknownValue(trace[k].assign.lhs)
    {
      CopyRightSide(CopyMemcpy, RemoveAddr(args[0]), None, st, k);
    }
  }

  /** The corrected clearing hook clears the argument it was registered for. */
  lemma ClearsArgumentTargetsParam(args: seq<Expr>, param: int, st: Type)
    requires 0 <= param < |args|
    requires GetStructType(RemoveAddr(args[param])) == Some(st)
    ensures var trace := MatchClearsArgument(args, param, 0);
            && |trace| == |Expandable(st.members)|
            && forall k :: 0 <= k < |trace| ==>
                 && trace[k].assign.lhs == LeftMember(RemoveAddr(args[param]), CopiedMember(st, k))
                 && trace[k].assign.rhs == UnknownValue(trace[k].assign.lhs)
  {
    var trace := MatchClearsArgument(args, param, 0);
    StripIdempotent(RemoveAddr(args[param]));
    OneAssignmentPerMember(CopyMemcpy, RemoveAddr(args[param]), None, st);
    forall k | 0 <= k < |trace|
      ensures trace[k].assign.rhs == UnknownValue(trace[k].assign.lhs)
    {
      CopyRightSide(CopyMemcpy, RemoveAddr(args[param]), None, st, k);
    }
  }

  /** `foo(&a, &b)` with "foo clears argument 1": the source clears `a`'s
      member, not `b`'s, while the corrected hook clears `b`'s. */
  lemma ClearerIgnoresParamIndex()
    ensures var s := Struct(0, [Field(Some("x"), Some(Scalar))]);
            var a := Var("a", Some(s));
            var b := Var("b", Some(s));
            && MatchMemcpyUnknown([AddrOf(a), AddrOf(b)], 1, 0)
               == [Step(Assign(MemberOf(a, Dot, Some("x"), Some(Scalar)),
                               UnknownValue(MemberOf(a, Dot, Some("x"), Some(Scalar)))), 1)]
            && MatchClearsArgument([AddrOf(a), AddrOf(b)], 1, 0)
               == [Step(Assign(MemberOf(b, Dot, Some("x"), Some(Scalar)),
                               UnknownValue(MemberOf(b, Dot, Some("x"), Some(Scalar)))), 1)]
  {
  }

  /** `n = *n.next;` for `struct node { int x; struct node *next; }`: the
      type of `*n.next` is read from the member declaration, an unrolling of
      `node` with the same symbol, so both members are copied from it. */
  lemma SelfReferentialStructCopies()
    ensures var inner := Struct(7, [Field(Some("x"), Some(Scalar)), Field(Some("next"), Some(Pointer(Scalar)))]);
            var node := Struct(7, [Field(Some("x"), Some(Scalar)), Field(Some("next"), Some(Pointer(inner)))]);
            var n := Var("n", Some(node));
            var next := Deref(MemberOf(n, Dot, Some("next"), Some(Pointer(inner))));
            FakeStructMemberAssignments(Assign(n, next), 0)
            == [Step(Assign(MemberOf(n, Dot, Some("x"), Some(Scalar)),
                            MemberOf(next, Dot, Some("x"), Some(Scalar))), 1),
                Step(Assign(MemberOf(n, Dot, Some("next"), Some(Pointer(inner))),
                            MemberOf(next, Dot, Some("next"), Some(Pointer(inner)))), 1)]
  {
  }
}

=== FILE: wrappers.dfy ===
/** The optional value used wherever the C code works with a pointer that may be NULL. */
module Wrappers {

  datatype Option<+T> = None | Some(value: T)
}
